=== FILE: README.md ===
# Student directory: a model of its request handlers

The application is a small web directory of students, with add, edit, delete,
detail, search and CSV export, plus a username/password sign-up and sign-in
flow. Under the web framework and the ORM, every handler is a step of a
state machine, taking requests one at a time. This project states that machine in Dafny and proves
what each step does.

- **State** (`Store.State`): the `student` table as a sequence of
  `Student(id, name, email)`, the `user` table as a sequence of
  `User(id, username, passwordHash)`, both in the order the store returns them,
  and the session's `user_id` entry as an `Option<int>`.
- **Steps** (`App`): one pure function per route. Each takes the state and the
  submitted request and returns a `Response(state, outcome)`. An outcome is a
  redirect, a rendered page, a 404 or a CSV attachment. Redirects and pages
  carry a tag for their flash message. The error kinds (username taken, email
  taken, failed registration, invalid credentials) are told apart by that tag.
- **Invariant** (`Store.Valid`): every state reachable from an empty database
  has distinct student ids, distinct user ids and distinct usernames, and a
  session only ever holds the id of an existing user. Every handler preserves
  it (`App.Handle`, `App.RunPreservesValid`).
- **CSV** (`Csv`): the export as the loop builds it (`Csv.Export`), a recursive
  reference definition (`Csv.Document`), and a parser that is its partner.
  That parser, `Csv.Parse`, cuts the text into lines and each line at its
  first comma. It is not a CSV reader in the sense of RFC 4180. The export
  splits back under `Csv.Parse` exactly when no name contains a comma or line
  break and no email contains a line break. A comma inside a name shifts the
  columns, because values are written without quoting. A CSV reader also
  treats a double quote as quoting and a carriage return as a line break, so
  a `"` or `\r` inside a value corrupts the file for such a reader, even
  though `Csv.Parse` splits it back.
- **Cross-route properties** (`AppProperties`): add then detail, edit then
  detail, delete twice, register then login, indistinguishable login failures,
  and logout idempotence.

Three external collaborators are parameters rather than code:
- Form validation (`validate_on_submit`) is a `validates` flag on each form
  value. It is false on a GET and on any rejected field.
- Password hashing is a pair of function parameters, `hash` and `check`. The
  only law assumed of them, `check(hash(p), p)`, appears as a precondition of
  `AppProperties.RegisterThenLogin`.
- A failed insert or commit during registration is the `commitFails`
  argument of `App.Register`.

New rows get one more than the largest id already in their table. The contracts
promise only that the id is positive and not yet taken.

The search filter is modelled as plain, case-sensitive substring matching
(`Text.Contains`). The database would run the filter as SQLite `LIKE`,
which ignores ASCII case, so there the query "an" also matches "Anna". The
model does not follow the database here: `AppProperties.SearchExample` proves
that "an" finds "Juan" but not "Anna".

## Model

| member | source | states |
|---|---|---|
| Store.FirstIndex | app.py:86 | The `.first()` of a filtered query: nothing exactly when no row satisfies the filter, otherwise the position of a row that does, with no earlier row satisfying it. |
| Store.IndexOfStudent | app.py:33 | The primary-key lookup finds nothing exactly when no student has the id. Otherwise it returns a position holding that id, and no other position holds it when ids are distinct. |
| Store.IndexOfUsername | app.py:116 | `filter_by(username).first()` finds nothing exactly when no user has the name. Otherwise it returns a user with that name, the only one when usernames are distinct. |
| Store.NewStudentId | app.py:24-26 | The id a new student row receives is positive and belongs to no existing student. |
| Store.NewUserId | app.py:98-99 | The id a new user row receives is positive and belongs to no existing user. |
| Store.RemoveStudentAt | app.py:46 | Removing one row keeps the other rows in order. With distinct ids, the remaining rows are exactly the students whose id differs from the removed one. |
| Text.ContainsIffOccurs | app.py:70 | `Text.Contains`, the meaning given to `contains`, holds of a name and the query exactly when the query is the slice of the name at some position. |
| App.Matching | app.py:70 | The search result holds exactly the students whose name contains the query, and no more rows than the table. |
| App.MatchingAppend | app.py:70 | Filtering a concatenation concatenates the filtered parts, so results keep store order. |
| App.MatchingEmptyQuery | app.py:69-70 | The empty query, which a POST without a `query` field falls back to, returns every student in store order. |
| App.AddStudent | app.py:21-29 | An invalid form renders the add page and changes nothing. A valid one appends exactly one student with the submitted name and email and a fresh id, keeps every earlier row, users and session, redirects to the list, and preserves `Valid`. |
| App.EditStudent | app.py:32-41 | A missing id gives 404 with no change. An invalid form renders that student's edit page with no flash message and no change. A valid form gives the student with that id the submitted name and email under the same id, leaves every other student, all users and the session as they were, and redirects to the list. |
| App.DeleteStudent | app.py:44-49 | A missing id gives 404 with no change. Otherwise exactly one row with that id is removed, the others keep their order, and the count drops by one. With distinct ids, no row with that id remains, and the remaining rows are exactly the students with other ids. Users and session are untouched. |
| App.StudentDetail | app.py:52-54 | Never changes the state. Gives 404 exactly when the id is missing, and otherwise renders a stored student with that id. |
| App.ExportCsv | app.py:57-62 | Never changes the state. Returns as a CSV attachment exactly the reference document `Csv.Document`: the `Nom,Email` header, then `name,email` and a line break per student, verbatim, in store order. Under `Csv.Parse`, the attachment splits back into the students' (name, email) pairs in store order exactly when every student is plain. |
| Csv.Export | app.py:58-61 | The loop that starts from the header and appends `name,email` and a line break per student builds exactly the reference document `Csv.Document`, the header followed by one `Csv.Row` per student. |
| Csv.RowsAppend | app.py:60-61 | The rows of a concatenation are the concatenated rows, one per student, in store order. |
| Csv.ParseDocument | app.py:59-61 | Round trip under `Csv.Parse`, the line and first-comma splitter: the export splits back into the students' names and emails, in order, exactly when no name has a comma or line break and no email has a line break. |
| Csv.CommaInNameShiftsColumns | app.py:61 | Values are written unquoted, so a name `first,last` reads back as name `first` and email `last,email`. |
| Csv.TwoStudentExample | app.py:59-61 | Anna and Bob export as `Nom,Email\nAnna,a@x.com\nBob,b@x.com\n`. |
| App.SearchStudent | app.py:65-71 | Never changes the state. A GET shows no results and the empty query. A POST shows the submitted query, or `""` when the field is missing, and as results `Matching` of the table: exactly the students whose name contains it, in store order. A missing query yields the whole table. |
| App.Register | app.py:82-110 | An invalid form renders the page with no change. A taken username is refused before the email is looked at. Then a taken email is refused. A failed commit changes nothing. Otherwise exactly one user (username, hash of the password) and one student (name = username, email) are appended, each with a fresh id. The two tables change together or not at all. The session is never touched, and `Valid` is preserved. |
| App.Login | app.py:113-123 | An invalid form renders the page with no change. For a valid form, the only outcomes are one identical invalid-credentials response with no change, or a redirect home with the session set to the id of a user whose name matches and whose hash checks against the password. With distinct usernames, success happens exactly when such a user exists. |
| App.Logout | app.py:126-129 | Afterwards the session holds no user, both tables are unchanged, and the response redirects to the login page. |
| App.Handle | app.py:20-129 | Every modelled route preserves the state invariant `Valid`. |
| App.RunPreservesValid | app.py:20-129 | Any sequence of requests served from a valid state, the empty database included, ends in a valid state. |
| AppProperties.AddThenDetail | app.py:24-26 | A student added through the form can be retrieved under its assigned id, with the submitted name and email. |
| AppProperties.EditThenDetail | app.py:36-38 | After an edit, the detail page for that id shows the submitted name and email. |
| AppProperties.DeleteTwiceNotFound | app.py:45-47 | A second delete of the same id gives 404. |
| AppProperties.RegisterThenLogin | app.py:97-118 | Assume only that `check` accepts `hash(p)` for `p`. Then logging in right after a successful registration with the same username and password succeeds, and the session holds the new user's id. |
| AppProperties.LoginFailuresIndistinguishable | app.py:116-122 | In every state, an unknown username and a known username with a wrong password give the identical response, and neither changes the state. |
| AppProperties.LogoutIdempotent | app.py:127 | Logging out twice is the same as logging out once. |
| AppProperties.LogoutIgnoresSession | app.py:127 | The result of logging out does not depend on what the session held. |
| AppProperties.RegisterPairsUserWithStudent | app.py:82-110 | Registration preserves the pairing "every user has a student named after it": a success inserts the user together with such a student, and every other outcome changes neither table. |
| AppProperties.DeleteUnpairsRegisteredUser | app.py:97-103 | Nothing ties the pair together: deleting the student created at registration leaves the user without a student of its name. |
| AppProperties.DeleteBreaksPairing | app.py:44-49 | Delete does not preserve the pairing: from a paired state, a registration keeps it and deleting the new student then breaks it. |
| AppProperties.ExampleNames | app.py:70 | Under case-sensitive matching, "an" occurs in "Juan" but not in "Bob" or "Anna". |
| AppProperties.SearchExample | app.py:70 | Searching "an" among Anna, Bob and Juan returns Juan only. |

## Left out

- The routes `/`, `/students`, `/about` and `/contact` are not modelled. They only render a template and never change state.
- Templates, flash message text, `url_for` and the CSV response's mimetype and `Content-Disposition` header are reduced to outcome tags.
- Form validation rules are not modelled because `forms.py` is not part of this model. Each form carries only the verdict of `validate_on_submit`.
- Password hashing and salting are reduced to the `hash` and `check` parameters.
- How SQLite assigns ids is not visible in the source. The model chooses one more than the largest id and promises only "fresh".
- The database's `LIKE` semantics for `contains` are not modelled: ASCII case-insensitivity and the `%` and `_` wildcards inside a query. The filter is plain case-sensitive substring matching.
- Row order is taken to be table order. `query.all()` has no `ORDER BY`, so the database does not promise any order.
- Failures of the commits in add, edit and delete are not modelled. Those handlers do not catch them, so the failure would surface as a server error. Only registration's caught failure is modelled, as `commitFails`.
- App.EditStudent: a failed POST renders the edit page carrying the stored record. The submitted values and field errors the re-rendered form would show are template detail.
- App.Login: the "success exactly when the credentials match" direction is stated only for distinct usernames. With duplicates, `.first()` would try only the first user of that name. Distinct usernames hold in every state reachable by requests served one at a time (`Store.Valid`).
- Concurrent requests are not modelled. The server runs with `app.run` (app.py:137), which serves requests on threads, while the model applies one request at a time. Registration checks the username and the email (app.py:86-94) before it inserts (app.py:98-103). Two simultaneous registrations could both pass the checks. Whether the second insert then fails depends on a unique constraint in `models.py`, which is not part of this model. So `Store.Valid`'s distinct usernames, and with them the "exactly when" direction of `App.Login`, hold only when requests are served one after another.
- Csv.ParseDocument: the round trip is stated for `Csv.Parse`, which splits lines and first commas, and not for an RFC 4180 CSV reader. Such a reader would also misread a `"` or a `\r` inside a value, which `Csv.Plain` allows.
- Ids are unbounded integers. A 64-bit overflow of the id column is not modelled.
- Configuration (database URI, secret key), error logging and server start-up are not modelled.

=== FILE: App.dfy ===
/** The request handlers of the student directory, each a pure transition
    from a state and a submitted request to the next state and an outcome.
    Rendering, redirects and flash messages are reduced to tags; form
    validation is the `validates` flag of each form; password hashing is
    passed in as a pair of functions. */
module App {
  import opened Store
  import opened Text
  import Csv

  /** Pages a handler renders. */
  datatype View =
    | AddStudentPage
    | EditStudentPage(student: Student)
    | DetailPage(student: Student)
    | SearchPage(results: seq<Student>, query: string)
    | RegisterPage
    | LoginPage

  /** Routes a handler redirects to. */
  datatype Target = ToHome | ToStudentList | ToRegister | ToLogin

  /** The flash message attached to a response; the error kinds of the
      application are told apart by it. */
  datatype Notice =
    | NoNotice
    | StudentAdded
    | StudentUpdated
    | StudentDeleted
    | UsernameTaken
    | EmailTaken
    | Registered
    | RegistrationFailed
    | LoggedIn
    | InvalidCredentials
    | LoggedOut

  datatype Outcome =
    | Redirect(target: Target, notice: Notice)
    | Render(view: View, notice: Notice)
    | NotFound
    | CsvAttachment(body: string)

  datatype Response = Response(state: State, outcome: Outcome)

  /** A submitted student form; `validates` is the verdict of
      `validate_on_submit`, false on a GET or when a field is rejected. */
  datatype StudentForm = StudentForm(validates: bool, name: string, email: string)

  datatype RegisterForm = RegisterForm(validates: bool, username: string, email: string, password: string)

  datatype LoginForm = LoginForm(validates: bool, username: string, password: string)

  /** A search request; a POST may lack the `query` field. */
  datatype SearchRequest = SearchGet | SearchPost(query: Option<string>)

  /** The students whose name contains `query`, in store order. */
  function Matching(ss: seq<Student>, query: string): (r: seq<Student>)
    ensures forall s :: s in r <==> s in ss && Contains(s.name, query)
    ensures |r| <= |ss|
  {
    if |ss| == 0 then []
    else if Contains(ss[0].name, query) then [ss[0]] + Matching(ss[1..], query)
    else Matching(ss[1..], query)
  }

  /** Matching distributes over concatenation; with `Matching` of a single
      student this pins the result down to the matching students in order. */
  lemma {:induction false} MatchingAppend(a: seq<Student>, b: seq<Student>, query: string)
    ensures Matching(a + b, query) == Matching(a, query) + Matching(b, query)
    decreases |a|
  {
    if |a| == 0 {
      assert a + b == b;
    } else {
      assert (a + b)[1..] == a[1..] + b;
      MatchingAppend(a[1..], b, query);
    }
  }

  /** The empty query keeps every student. */
  lemma {:induction false} MatchingEmptyQuery(ss: seq<Student>)
    ensures Matching(ss, "") == ss
    decreases |ss|
  {
    if |ss| > 0 {
      ContainsEmpty(ss[0].name);
      MatchingEmptyQuery(ss[1..]);
    }
  }

  /** POST /add: a valid form appends one student with a fresh id. */
  function AddStudent(st: State, form: StudentForm): (r: Response)
    ensures !form.validates ==> r == Response(st, Render(AddStudentPage, NoNotice))
    ensures form.validates ==>
              && r.outcome == Redirect(ToStudentList, StudentAdded)
              && |r.state.students| == |st.students| + 1
              && r.state.students[..|st.students|] == st.students
              && r.state.students[|st.students|].name == form.name
              && r.state.students[|st.students|].email == form.email
              && !HasStudentId(st.students, r.state.students[|st.students|].id)
              && r.state.users == st.users
              && r.state.session == st.session
    ensures Valid(st) ==> Valid(r.state)
  {
    if !form.validates then Response(st, Render(AddStudentPage, NoNotice))
    else
      var s := Student(NewStudentId(st.students), form.name, form.email);
      var students := st.students + [s];
      assert students[..|st.students|] == st.students;
      Response(st.(students := students), Redirect(ToStudentList, StudentAdded))
  }

  /** GET or POST /edit/<id>: a missing id is a 404; a valid form overwrites
      the name and email of that student and of no other. */
  function EditStudent(st: State, id: int, form: StudentForm): (r: Response)
    ensures !HasStudentId(st.students, id) ==> r == Response(st, NotFound)
    ensures HasStudentId(st.students, id) && !form.validates ==>
              && r.state == st
              && r.outcome.Render? && r.outcome.view.EditStudentPage?
              && r.outcome.view.student in st.students
              && r.outcome.view.student.id == id
              && r.outcome.notice == NoNotice
    ensures HasStudentId(st.students, id) && form.validates ==>
              && r.outcome == Redirect(ToStudentList, StudentUpdated)
              && |r.state.students| == |st.students|
              && r.state.users == st.users
              && r.state.session == st.session
              && forall i :: 0 <= i < |st.students| && st.students[i].id != id ==>
                   r.state.students[i] == st.students[i]
    ensures HasStudentId(st.students, id) && form.validates && StudentIdsDistinct(st.students) ==>
              forall i :: 0 <= i < |st.students| && st.students[i].id == id ==>
                r.state.students[i] == Student(id, form.name, form.email)
    ensures Valid(st) ==> Valid(r.state)
  {
    match IndexOfStudent(st.students, id)
    case None => Response(st, NotFound)
    case Some(k) =>
      if !form.validates then Response(st, Render(EditStudentPage(st.students[k]), NoNotice))
      else
        var students := st.students[k := Student(id, form.name, form.email)];
        Response(st.(students := students), Redirect(ToStudentList, StudentUpdated))
  }

  /** GET /delete/<id>: a missing id is a 404; otherwise exactly the row with
      that id leaves the table and the rest keep their order. */
  function DeleteStudent(st: State, id: int): (r: Response)
    ensures !HasStudentId(st.students, id) ==> r == Response(st, NotFound)
    ensures HasStudentId(st.students, id) ==>
              && r.outcome == Redirect(ToStudentList, StudentDeleted)
              && r.state.users == st.users
              && r.state.session == st.session
              && |r.state.students| == |st.students| - 1
              && exists k :: 0 <= k < |st.students| && st.students[k].id == id &&
                   r.state.students == st.students[..k] + st.students[k + 1..]
    ensures HasStudentId(st.students, id) && StudentIdsDistinct(st.students) ==>
              && !HasStudentId(r.state.students, id)
              && forall s :: s in r.state.students <==> s in st.students && s.id != id
    ensures Valid(st) ==> Valid(r.state)
  {
    match IndexOfStudent(st.students, id)
    case None => Response(st, NotFound)
    case Some(k) =>
      RemoveStudentAt(st.students, k);
      var students := st.students[..k] + st.students[k + 1..];
      Response(st.(students := students), Redirect(ToStudentList, StudentDeleted))
  }

  /** GET /student/<id>: shows the student with that id, or a 404; never
      changes anything. */
  function StudentDetail(st: State, id: int): (r: Response)
    ensures r.state == st
    ensures !HasStudentId(st.students, id) <==> r.outcome == NotFound
    ensures HasStudentId(st.students, id) ==>
              && r.outcome.Render? && r.outcome.view.DetailPage?
              && r.outcome.view.student in st.students
              && r.outcome.view.student.id == id
              && r.outcome.notice == NoNotice
  {
    match IndexOfStudent(st.students, id)
    case None => Response(st, NotFound)
    case Some(k) => Response(st, Render(DetailPage(st.students[k]), NoNotice))
  }

  /** GET /export_csv: the CSV document of all students, values written
      verbatim; never changes anything. */
  function ExportCsv(st: State): (r: Response)
    ensures r.state == st
    ensures r.outcome == CsvAttachment(Csv.Document(st.students))
    // A corollary of the equality above, kept for callers.
    ensures Csv.Header <= r.outcome.body
    ensures Csv.Parse(r.outcome.body) == Some(Csv.Fields(st.students)) <==>
              forall i :: 0 <= i < |st.students| ==> Csv.Plain(st.students[i])
  {
    var body := Csv.Document(st.students);
    Csv.ParseDocument(st.students);
    Response(st, CsvAttachment(body))
  }

  /** GET or POST /search: a GET shows no results and an empty query; a POST
      shows the students whose name contains the query, in store order, a
      missing query counting as the empty one, which every name contains. */
  function SearchStudent(st: State, req: SearchRequest): (r: Response)
    ensures r.state == st
    ensures req.SearchGet? ==> r.outcome == Render(SearchPage([], ""), NoNotice)
    ensures req.SearchPost? ==>
              && r.outcome.Render? && r.outcome.view.SearchPage? && r.outcome.notice == NoNotice
              && r.outcome.view.query == (if req.query.Some? then req.query.value else "")
              && r.outcome.view.results == Matching(st.students, r.outcome.view.query)
              // A corollary of the line above and `Matching`'s contract.
              && (forall s :: s in r.outcome.view.results <==>
                    s in st.students && Contains(s.name, r.outcome.view.query))
    ensures req.SearchPost? && req.query.None? ==> r.outcome.view.results == st.students
  {
    match req
    case SearchGet => Response(st, Render(SearchPage([], ""), NoNotice))
    case SearchPost(q) =>
      var query := if q.Some? then q.value else "";
      MatchingEmptyQuery(st.students);
      Response(st, Render(SearchPage(Matching(st.students, query), query), NoNotice))
  }

  /** GET or POST /register: a taken username is refused before a taken email
      is looked at; otherwise a user and a student named after it are inserted
      together, or, when the commit fails, neither is. */
  function Register(st: State, form: RegisterForm, hash: string -> string, commitFails: bool): (r: Response)
    ensures !form.validates ==> r == Response(st, Render(RegisterPage, NoNotice))
    ensures form.validates && HasUsername(st.users, form.username) ==>
              r == Response(st, Redirect(ToRegister, UsernameTaken))
    ensures form.validates && !HasUsername(st.users, form.username) && HasEmail(st.students, form.email) ==>
              r == Response(st, Redirect(ToRegister, EmailTaken))
    ensures form.validates && !HasUsername(st.users, form.username) && !HasEmail(st.students, form.email)
            && commitFails ==>
              r == Response(st, Render(RegisterPage, RegistrationFailed))
    ensures form.validates && !HasUsername(st.users, form.username) && !HasEmail(st.students, form.email)
            && !commitFails ==>
              && r.outcome == Redirect(ToLogin, Registered)
              && r.state.session == st.session
              && |r.state.users| == |st.users| + 1
              && r.state.users[..|st.users|] == st.users
              && r.state.users[|st.users|].username == form.username
              && r.state.users[|st.users|].passwordHash == hash(form.password)
              && !HasUserId(st.users, r.state.users[|st.users|].id)
              && |r.state.students| == |st.students| + 1
              && r.state.students[..|st.students|] == st.students
              && r.state.students[|st.students|].name == form.username
              && r.state.students[|st.students|].email == form.email
              && !HasStudentId(st.students, r.state.students[|st.students|].id)
    ensures r.state.users == st.users <==> r.state.students == st.students
    ensures r.state.session == st.session
    ensures Valid(st) ==> Valid(r.state)
  {
    if !form.validates then Response(st, Render(RegisterPage, NoNotice))
    else if HasUsername(st.users, form.username) then Response(st, Redirect(ToRegister, UsernameTaken))
    else if HasEmail(st.students, form.email) then Response(st, Redirect(ToRegister, EmailTaken))
    else if commitFails then Response(st, Render(RegisterPage, RegistrationFailed))
    else
      var u := User(NewUserId(st.users), form.username, hash(form.password));
      var s := Student(NewStudentId(st.students), form.username, form.email);
      var users := st.users + [u];
      var students := st.students + [s];
      assert users[..|st.users|] == st.users && students[..|st.students|] == st.students;
      assert |users| != |st.users| && |students| != |st.students|;
      assert st.session.Some? && HasUserId(st.users, st.session.value) ==> HasUserId(users, st.session.value);
      Response(State(students, users, st.session), Redirect(ToLogin, Registered))
  }

  /** A user with this name exists and the password checks against its hash. */
  predicate Authenticates(us: seq<User>, username: string, password: string,
                          check: (string, string) -> bool) {
    exists i :: 0 <= i < |us| && us[i].username == username && check(us[i].passwordHash, password)
  }

  /** GET or POST /login: on a credential match the session holds the user's
      id; every failure, unknown name or wrong password, looks the same and
      changes nothing. */
  function Login(st: State, form: LoginForm, check: (string, string) -> bool): (r: Response)
    ensures !form.validates ==> r == Response(st, Render(LoginPage, NoNotice))
    ensures form.validates ==>
              || r == Response(st, Render(LoginPage, InvalidCredentials))
              || (&& r.outcome == Redirect(ToHome, LoggedIn)
                  && exists i :: 0 <= i < |st.users| && st.users[i].username == form.username
                                 && check(st.users[i].passwordHash, form.password)
                                 && r.state == st.(session := Some(st.users[i].id)))
    ensures form.validates && UsernamesDistinct(st.users) ==>
              (r.outcome == Redirect(ToHome, LoggedIn) <==>
                 Authenticates(st.users, form.username, form.password, check))
    ensures Valid(st) ==> Valid(r.state)
  {
    if !form.validates then Response(st, Render(LoginPage, NoNotice))
    else
      match IndexOfUsername(st.users, form.username)
      case Some(k) =>
        if check(st.users[k].passwordHash, form.password) then
          Response(st.(session := Some(st.users[k].id)), Redirect(ToHome, LoggedIn))
        else
          Response(st, Render(LoginPage, InvalidCredentials))
      case None =>
        Response(st, Render(LoginPage, InvalidCredentials))
  }

  /** GET /logout: whatever the session held, it holds no user afterwards. */
  function Logout(st: State): (r: Response)
    ensures r.state.session.None?
    ensures r.state.students == st.students && r.state.users == st.users
    ensures r.outcome == Redirect(ToLogin, LoggedOut)
  {
    Response(st.(session := None), Redirect(ToLogin, LoggedOut))
  }

  /** One request to one of the modelled routes. */
  datatype Request =
    | AddRoute(addForm: StudentForm)
    | EditRoute(editId: int, editForm: StudentForm)
    | DeleteRoute(deleteId: int)
    | DetailRoute(detailId: int)
    | SearchRoute(search: SearchRequest)
    | ExportCsvRoute
    | RegisterRoute(registration: RegisterForm, commitFails: bool)
    | LoginRoute(login: LoginForm)
    | LogoutRoute

  /** Routes a request to its handler. */
  function Handle(st: State, req: Request, hash: string -> string,
                  check: (string, string) -> bool): (r: Response)
    ensures Valid(st) ==> Valid(r.state)
  {
    match req
    case AddRoute(f) => AddStudent(st, f)
    case EditRoute(id, f) => EditStudent(st, id, f)
    case DeleteRoute(id) => DeleteStudent(st, id)
    case DetailRoute(id) => StudentDetail(st, id)
    case SearchRoute(q) => SearchStudent(st, q)
    case ExportCsvRoute => ExportCsv(st)
    case RegisterRoute(f, fails) => Register(st, f, hash, fails)
    case LoginRoute(f) => Login(st, f, check)
    case LogoutRoute => Logout(st)
  }

  /** The state after serving some requests one after another. */
  function Run(st: State, reqs: seq<Request>, hash: string -> string,
               check: (string, string) -> bool): State
    decreases |reqs|
  {
    if |reqs| == 0 then st
    else Run(Handle(st, reqs[0], hash, check).state, reqs[1..], hash, check)
  }

  /** Every state reachable from a valid one, in particular from the empty
      database, is valid. */
  lemma {:induction false} RunPreservesValid(st: State, reqs: seq<Request>, hash: string -> string,
                                             check: (string, string) -> bool)
    requires Valid(st)
    ensures Valid(Run(st, reqs, hash, check))
    decreases |reqs|
  {
    if |reqs| > 0 {
      RunPreservesValid(Handle(st, reqs[0], hash, check).state, reqs[1..], hash, check);
    }
  }
}

=== FILE: AppProperties.dfy ===
/** Properties that relate several requests to each other. */
module AppProperties {
  import opened Store
  import opened Text
  import opened App

  /** A student added through the form can be looked up under its new id. */
  lemma AddThenDetail(st: State, form: StudentForm)
    requires Valid(st) && form.validates
    ensures var r := AddStudent(st, form);
            var id := r.state.students[|st.students|].id;
            StudentDetail(r.state, id).outcome
              == Render(DetailPage(Student(id, form.name, form.email)), NoNotice)
  {
  }

  /** After an edit, the detail page of that id shows the submitted values. */
  lemma EditThenDetail(st: State, id: int, form: StudentForm)
    requires Valid(st) && form.validates && HasStudentId(st.students, id)
    ensures StudentDetail(EditStudent(st, id, form).state, id).outcome
              == Render(DetailPage(Student(id, form.name, form.email)), NoNotice)
  {
  }

  /** Deleting the same id twice: the second request finds nothing. */
  lemma DeleteTwiceNotFound(st: State, id: int)
    requires Valid(st)
    ensures DeleteStudent(DeleteStudent(st, id).state, id).outcome == NotFound
  {
  }

  /** A user who has just registered can log in with the same password, given
      only that the password check accepts the hash of the password it is
      given; the session then holds the new user's id. */
  lemma RegisterThenLogin(st: State, form: RegisterForm,
                          hash: string -> string, check: (string, string) -> bool)
    requires Valid(st)
    requires forall p :: check(hash(p), p)
    requires form.validates
    requires Register(st, form, hash, false).outcome == Redirect(ToLogin, Registered)
    ensures var st' := Register(st, form, hash, false).state;
            Login(st', LoginForm(true, form.username, form.password), check)
              == Response(st'.(session := Some(st'.users[|st.users|].id)), Redirect(ToHome, LoggedIn))
  {
  }

  /** An unknown username and a wrong password give the same response, and
      neither touches the state. */
  lemma LoginFailuresIndistinguishable(st: State, unknown: LoginForm, wrong: LoginForm,
                                       check: (string, string) -> bool)
    requires unknown.validates && !HasUsername(st.users, unknown.username)
    requires wrong.validates && HasUsername(st.users, wrong.username)
    requires !Authenticates(st.users, wrong.username, wrong.password, check)
    ensures Login(st, unknown, check) == Login(st, wrong, check)
    ensures Login(st, wrong, check) == Response(st, Render(LoginPage, InvalidCredentials))
  {
  }

  /** Logging out twice is the same as logging out once. */
  lemma LogoutIdempotent(st: State)
    ensures Logout(Logout(st).state) == Logout(st)
  {
  }

  /** Logging out does not depend on what the session held. */
  lemma LogoutIgnoresSession(st: State, a: Option<int>, b: Option<int>)
    ensures Logout(st.(session := a)) == Logout(st.(session := b))
  {
  }

  /** Every user has a student row named after it, as registration sets up. */
  predicate EveryUserHasStudent(st: State) {
    forall u :: u in st.users ==> exists s :: s in st.students && s.name == u.username
  }

  /** Registration keeps every user paired with a student of its name: a
      successful one inserts the new user together with such a student, and
      every other outcome changes neither table. */
  lemma RegisterPairsUserWithStudent(st: State, form: RegisterForm, hash: string -> string,
                                     commitFails: bool)
    requires EveryUserHasStudent(st)
    ensures EveryUserHasStudent(Register(st, form, hash, commitFails).state)
  {
    var st' := Register(st, form, hash, commitFails).state;
    if st'.users != st.users {
      var n := |st.users|;
      assert st'.users == st.users + [st'.users[n]];
      var partner := st'.students[|st.students|];
      assert partner in st'.students;
      forall u | u in st'.users
        ensures exists s :: s in st'.students && s.name == u.username
      {
        if u in st.users {
          var s :| s in st.students && s.name == u.username;
          assert s in st'.students;
        } else {
          assert partner.name == u.username;
        }
      }
    }
  }

  /** ... but nothing keeps the pair together: deleting the student created
      at registration leaves the user without a student of its name, when no
      other student had that name. */
  lemma DeleteUnpairsRegisteredUser(st: State, form: RegisterForm, hash: string -> string)
    requires Valid(st)
    requires form.validates
    requires forall i :: 0 <= i < |st.students| ==> st.students[i].name != form.username
    requires Register(st, form, hash, false).outcome == Redirect(ToLogin, Registered)
    ensures var st' := Register(st, form, hash, false).state;
            var st'' := DeleteStudent(st', st'.students[|st.students|].id).state;
            && HasUsername(st''.users, form.username)
            && forall i :: 0 <= i < |st''.students| ==> st''.students[i].name != form.username
  {
  }

  /** So the pairing is an invariant of registration only: from a paired
      state, registering and then deleting the new student unpairs it. */
  lemma DeleteBreaksPairing(st: State, form: RegisterForm, hash: string -> string)
    requires Valid(st) && EveryUserHasStudent(st)
    requires form.validates
    requires forall i :: 0 <= i < |st.students| ==> st.students[i].name != form.username
    requires Register(st, form, hash, false).outcome == Redirect(ToLogin, Registered)
    ensures var st' := Register(st, form, hash, false).state;
            && EveryUserHasStudent(st')
            && !EveryUserHasStudent(DeleteStudent(st', st'.students[|st.students|].id).state)
  {
    RegisterPairsUserWithStudent(st, form, hash, false);
    DeleteUnpairsRegisteredUser(st, form, hash);
    var st' := Register(st, form, hash, false).state;
    var st'' := DeleteStudent(st', st'.students[|st.students|].id).state;
    var k :| 0 <= k < |st''.users| && st''.users[k].username == form.username;
    var u := st''.users[k];
    assert u in st''.users;
    assert forall s :: s in st''.students ==> s.name != u.username;
  }

  /** Matching is case-sensitive: "an" occurs in "Juan" but not in "Bob",
      nor in "Anna", whose only "an" is spelled with a capital A. */
  lemma ExampleNames()
    ensures !Contains("Anna", "an") && !Contains("Bob", "an") && Contains("Juan", "an")
  {
    assert !Contains("Anna", "an") by {
      ContainsIffOccurs("Anna", "an");
      assert "Anna"[0..2] == "An" && "Anna"[1..3] == "nn" && "Anna"[2..4] == "na";
    }
    assert !Contains("Bob", "an") by {
      ContainsIffOccurs("Bob", "an");
    }
    assert Contains("Juan", "an") by {
      assert OccursAt("Juan", "an", 2);
      ContainsIffOccurs("Juan", "an");
    }
  }

  /** Searching "an" among Anna, Bob and Juan finds Juan only. */
  lemma SearchExample()
    ensures var anna := Student(1, "Anna", "a@x.com");
            var bob := Student(2, "Bob", "b@x.com");
            var juan := Student(3, "Juan", "j@x.com");
            SearchStudent(State([anna, bob, juan], [], None), SearchPost(Some("an"))).outcome
              == Render(SearchPage([juan], "an"), NoNotice)
  {
    var anna := Student(1, "Anna", "a@x.com");
    var bob := Student(2, "Bob", "b@x.com");
    var juan := Student(3, "Juan", "j@x.com");
    ExampleNames();
    assert [anna, bob, juan][1..] == [bob, juan];
    assert [bob, juan][1..] == [juan];
    assert Matching([anna, bob, juan], "an") == Matching([bob, juan], "an");
    assert Matching([bob, juan], "an") == Matching([juan], "an");
    assert Matching([juan], "an") == [juan] + Matching([], "an");
  }
}

=== FILE: Csv.dfy ===
/** The CSV export of the student table: a fixed header row, then one
    `name,email` row per student in store order, with field values inserted
    verbatim (no quoting, no escaping). The export's partner, `Parse`, is a
    line and first-comma splitter, not a CSV reader in the sense of RFC 4180:
    it recovers the fields exactly when every student is `Plain`. A CSV reader
    also gives a double quote and a carriage return a meaning (quoting, a line
    break), so a `"` or `\r` inside a value corrupts the file for such a
    reader even when the student is `Plain`. */
module Csv {
  import opened Store

  const Header: string := "Nom,Email\n"

  /** The row a student contributes to the document. */
  function Row(s: Student): string {
    s.name + "," + s.email + "\n"
  }

  /** The rows of some students, in order. */
  function Rows(ss: seq<Student>): string {
    if |ss| == 0 then "" else Row(ss[0]) + Rows(ss[1..])
  }

  /** The whole exported document. */
  function Document(ss: seq<Student>): string {
    Header + Rows(ss)
  }

  /** Exporting a concatenation concatenates the exports: rows keep store order. */
  lemma {:induction false} RowsAppend(a: seq<Student>, b: seq<Student>)
    ensures Rows(a + b) == Rows(a) + Rows(b)
    decreases |a|
  {
    if |a| == 0 {
      assert a + b == b;
    } else {
      assert (a + b)[1..] == a[1..] + b;
      RowsAppend(a[1..], b);
    }
  }

  /** The export as the route builds it: start from the header and append one
      row per student. */
  method Export(students: seq<Student>) returns (output: string)
    ensures output == Document(students)
    ensures Header <= output
  {
    output := Header;
    var i := 0;
    while i < |students|
      invariant 0 <= i <= |students|
      invariant output == Header + Rows(students[..i])
    {
      var s := students[i];
      RowsAppend(students[..i], [s]);
      assert students[..i + 1] == students[..i] + [s];
      output := output + (s.name + "," + s.email + "\n");
      i := i + 1;
    }
    assert students[..i] == students;
  }

  /** The text before the first `sep` in `s`, and the text after it (empty
      when `sep` does not occur). */
  function SplitAt(s: string, sep: char): (r: (string, string))
    ensures sep !in r.0
    ensures sep in s ==> s == r.0 + [sep] + r.1
    ensures sep !in s ==> r == (s, "")
    ensures |s| > 0 ==> |r.1| < |s|
  {
    if |s| == 0 then ("", "")
    else if s[0] == sep then ("", s[1..])
    else
      var t := SplitAt(s[1..], sep);
      assert s == [s[0]] + s[1..];
      ([s[0]] + t.0, t.1)
  }

  /** Splitting at the first separator undoes gluing two parts with it, as
      long as the separator does not occur in the first part. */
  lemma {:induction false} SplitAtGlued(p: string, sep: char, q: string)
    requires sep !in p
    ensures SplitAt(p + [sep] + q, sep) == (p, q)
    decreases |p|
  {
    if |p| == 0 {
      assert p + [sep] + q == [sep] + q;
    } else {
      assert (p + [sep] + q)[1..] == p[1..] + [sep] + q;
      SplitAtGlued(p[1..], sep, q);
      assert [p[0]] + p[1..] == p;
    }
  }

  /** Reads rows back: each line is cut at its first comma. */
  function ParseRows(s: string): seq<(string, string)>
    decreases |s|
  {
    if |s| == 0 then []
    else
      var line := SplitAt(s, '\n');
      var fields := SplitAt(line.0, ',');
      [fields] + ParseRows(line.1)
  }

  /** Reads a whole document back; `None` when the header is missing. */
  function Parse(doc: string): Option<seq<(string, string)>> {
    if Header <= doc then Some(ParseRows(doc[|Header|..])) else None
  }

  /** The (name, email) pairs of some students, in order. */
  function Fields(ss: seq<Student>): seq<(string, string)> {
    seq(|ss|, i requires 0 <= i < |ss| => (ss[i].name, ss[i].email))
  }

  /** The fields of some students are the first student's, then the rest's. */
  lemma FieldsFirst(ss: seq<Student>)
    requires |ss| > 0
    ensures Fields(ss) == [(ss[0].name, ss[0].email)] + Fields(ss[1..])
  {
  }

  /** A student whose row `Parse` splits back into its own fields: no comma
      or line break in the name and no line break in the email. Double quotes
      and carriage returns are allowed, since `Parse` gives them no meaning. */
  predicate Plain(s: Student) {
    ',' !in s.name && BreakFree(s)
  }

  /** No line break in the name or the email. */
  predicate BreakFree(s: Student) {
    '\n' !in s.name && '\n' !in s.email
  }

  /** The rows of plain students read back as their fields, in order. */
  lemma {:induction false} ParseRowsOfRows(ss: seq<Student>)
    requires forall i :: 0 <= i < |ss| ==> Plain(ss[i])
    ensures ParseRows(Rows(ss)) == Fields(ss)
    decreases |ss|
  {
    if |ss| > 0 {
      ParseRowsFirstPlain(ss);
      assert forall i :: 0 <= i < |ss[1..]| ==> Plain(ss[1..][i]);
      ParseRowsOfRows(ss[1..]);
      FieldsFirst(ss);
    }
  }

  /** A plain first student's row reads back as its own fields. */
  lemma ParseRowsFirstPlain(ss: seq<Student>)
    requires |ss| > 0 && Plain(ss[0])
    ensures ParseRows(Rows(ss)) == [(ss[0].name, ss[0].email)] + ParseRows(Rows(ss[1..]))
  {
    var s := ss[0];
    ParseRowsFirst(ss);
    assert s.name + "," + s.email == s.name + [','] + s.email;
    SplitAtGlued(s.name, ',', s.email);
  }

  /** Each parsed row consumes at most one line break, so parsing yields at
      least as many rows as the text has line breaks. */
  lemma {:induction false} ParseRowsCountsLines(s: string)
    ensures |ParseRows(s)| >= multiset(s)['\n']
    decreases |s|
  {
    if |s| > 0 {
      var line := SplitAt(s, '\n');
      if '\n' in s {
        assert s == line.0 + ['\n'] + line.1;
        assert multiset(line.0)['\n'] == 0;
        assert multiset(s)['\n'] == 1 + multiset(line.1)['\n'];
      }
      ParseRowsCountsLines(line.1);
    }
  }

  /** The rows of some students hold at least one line break per student, and
      exactly one only when no name or email holds a line break. */
  lemma {:induction false} RowsCountLines(ss: seq<Student>)
    ensures multiset(Rows(ss))['\n'] >= |ss|
    ensures multiset(Rows(ss))['\n'] == |ss| ==> forall i :: 0 <= i < |ss| ==> BreakFree(ss[i])
    decreases |ss|
  {
    if |ss| > 0 {
      RowCountsLines(ss[0]);
      assert multiset(Rows(ss)) == multiset(Row(ss[0])) + multiset(Rows(ss[1..]));
      RowsCountLines(ss[1..]);
      if multiset(Rows(ss))['\n'] == |ss| {
        forall i | 0 <= i < |ss|
          ensures BreakFree(ss[i])
        {
          if i > 0 {
            assert ss[i] == ss[1..][i - 1];
          }
        }
      }
    }
  }

  /** A row holds its values' line breaks and one more. */
  lemma RowCountsLines(s: Student)
    ensures multiset(Row(s))['\n'] == multiset(s.name)['\n'] + multiset(s.email)['\n'] + 1
  {
    assert Row(s) == s.name + [','] + s.email + ['\n'];
  }

  /** Gluing two values without line breaks with a comma gives no line break. */
  lemma BreakFreeLine(name: string, email: string)
    requires '\n' !in name && '\n' !in email
    ensures '\n' !in name + "," + email
  {
    var line := name + "," + email;
    assert forall k :: 0 <= k < |line| ==>
      line[k] == (if k < |name| then name[k] else if k == |name| then ',' else email[k - |name| - 1]);
  }

  /** The first row of a text of rows, when the first student's values hold
      no line break, is that student's line split at its first comma. */
  lemma ParseRowsFirst(ss: seq<Student>)
    requires |ss| > 0 && BreakFree(ss[0])
    ensures ParseRows(Rows(ss)) == [SplitRow(ss[0])] + ParseRows(Rows(ss[1..]))
  {
    var line := ss[0].name + "," + ss[0].email;
    BreakFreeLine(ss[0].name, ss[0].email);
    var rest := Rows(ss[1..]);
    assert Rows(ss) == line + ['\n'] + rest;
    SplitAtGlued(line, '\n', rest);
    assert |Rows(ss)| > 0;
    assert SplitAt(Rows(ss), '\n') == (line, rest);
  }

  /** What `Parse` makes of a student's line: its text cut at the first comma. */
  function SplitRow(s: Student): (string, string) {
    SplitAt(s.name + "," + s.email, ',')
  }

  /** The split lines of some students, in order. */
  function Splits(ss: seq<Student>): seq<(string, string)> {
    seq(|ss|, i requires 0 <= i < |ss| => SplitRow(ss[i]))
  }

  /** With no line break in any value, the rows read back one per student,
      each its line cut at the first comma. */
  lemma {:induction false} ParseRowsBreakFree(ss: seq<Student>)
    requires forall i :: 0 <= i < |ss| ==> BreakFree(ss[i])
    ensures ParseRows(Rows(ss)) == Splits(ss)
    decreases |ss|
  {
    if |ss| > 0 {
      ParseRowsFirst(ss);
      assert forall i :: 0 <= i < |ss[1..]| ==> BreakFree(ss[1..][i]);
      ParseRowsBreakFree(ss[1..]);
      SplitsFirst(ss);
    }
  }

  /** The split lines of some students are the first one's, then the rest's. */
  lemma SplitsFirst(ss: seq<Student>)
    requires |ss| > 0
    ensures Splits(ss) == [SplitRow(ss[0])] + Splits(ss[1..])
  {
  }

  /** Converse of the round trip, once no value holds a line break: a name
      with a comma would be cut at that comma. */
  lemma RowsOfParseRows(ss: seq<Student>)
    requires forall i :: 0 <= i < |ss| ==> BreakFree(ss[i])
    requires ParseRows(Rows(ss)) == Fields(ss)
    ensures forall i :: 0 <= i < |ss| ==> Plain(ss[i])
  {
    ParseRowsBreakFree(ss);
    forall i | 0 <= i < |ss|
      ensures Plain(ss[i])
    {
      assert Splits(ss)[i] == Fields(ss)[i];
    }
  }

  /** Round trip: the export parses back as the students' names and emails, in
      store order, exactly when every student is plain. */
  lemma ParseDocument(ss: seq<Student>)
    ensures Parse(Document(ss)) == Some(Fields(ss)) <==> forall i :: 0 <= i < |ss| ==> Plain(ss[i])
  {
    ParseSkipsHeader(ss);
    if forall i :: 0 <= i < |ss| ==> Plain(ss[i]) {
      ParseRowsOfRows(ss);
    }
    if Parse(Document(ss)) == Some(Fields(ss)) {
      ParseRowsCountsLines(Rows(ss));
      RowsCountLines(ss);
      RowsOfParseRows(ss);
    }
  }

  lemma ParseSkipsHeader(ss: seq<Student>)
    ensures Parse(Document(ss)) == Some(ParseRows(Rows(ss)))
  {
  }

  /** Without quoting, a comma inside a name shifts the columns: a student
      named `first + "," + last` reads back with name `first` and with
      `last + "," + email` as its email. */
  lemma CommaInNameShiftsColumns(id: int, first: string, last: string, email: string)
    requires ',' !in first && '\n' !in first && '\n' !in last && '\n' !in email
    ensures Parse(Document([Student(id, first + "," + last, email)]))
            == Some([(first, last + "," + email)])
  {
    var name := first + "," + last;
    var s := Student(id, name, email);
    BreakFreeLine(first, last);
    var line := name + "," + email;
    BreakFreeLine(name, email);
    assert Rows([s]) == line + ['\n'] + Rows([]);
    SplitAtGlued(line, '\n', Rows([]));
    assert line == first + [','] + (last + "," + email);
    SplitAtGlued(first, ',', last + "," + email);
    assert Rows([]) == "" && ParseRows("") == [];
    assert ParseRows(Rows([s])) == [(first, last + "," + email)];
    ParseSkipsHeader([s]);
    assert s == Student(id, first + "," + last, email);
  }

  /** Two students export as the header and two rows, verbatim. */
  lemma TwoStudentExample()
    ensures Document([Student(1, "Anna", "a@x.com"), Student(2, "Bob", "b@x.com")])
            == "Nom,Email\nAnna,a@x.com\nBob,b@x.com\n"
  {
  }
}

=== FILE: Store.dfy ===
/** The application's persistent data and the client's session, as plain values.
    The `student` and `user` tables are sequences, in the order the store
    returns their rows; the session is reduced to its one entry, `user_id`. */
module Store {

  datatype Option<+T> = None | Some(value: T)

  /** A row of the `student` table. */
  datatype Student = Student(id: int, name: string, email: string)

  /** A row of the `user` table; `passwordHash` is whatever the password hash produced. */
  datatype User = User(id: int, username: string, passwordHash: string)

  /** Everything a request can read or change. */
  datatype State = State(students: seq<Student>, users: seq<User>, session: Option<int>)

  /** A fresh database and a client without a session. */
  const Empty: State := State([], [], None)

  predicate HasStudentId(ss: seq<Student>, id: int) {
    exists i :: 0 <= i < |ss| && ss[i].id == id
  }

  predicate HasEmail(ss: seq<Student>, email: string) {
    exists i :: 0 <= i < |ss| && ss[i].email == email
  }

  predicate HasUserId(us: seq<User>, id: int) {
    exists i :: 0 <= i < |us| && us[i].id == id
  }

  predicate HasUsername(us: seq<User>, username: string) {
    exists i :: 0 <= i < |us| && us[i].username == username
  }

  predicate StudentIdsDistinct(ss: seq<Student>) {
    forall i, j :: 0 <= i < j < |ss| ==> ss[i].id != ss[j].id
  }

  predicate UserIdsDistinct(us: seq<User>) {
    forall i, j :: 0 <= i < j < |us| ==> us[i].id != us[j].id
  }

  predicate UsernamesDistinct(us: seq<User>) {
    forall i, j :: 0 <= i < j < |us| ==> us[i].username != us[j].username
  }

  /** What every reachable state satisfies: primary keys are keys, a username
      names at most one user, and a session only ever holds the id of a user. */
  predicate Valid(st: State) {
    && StudentIdsDistinct(st.students)
    && UserIdsDistinct(st.users)
    && UsernamesDistinct(st.users)
    && (st.session.Some? ==> HasUserId(st.users, st.session.value))
  }

  /** Position of the first element satisfying `p`: the `.first()` of a filtered query. */
  function FirstIndex<T>(s: seq<T>, p: T -> bool): (r: Option<nat>)
    ensures r.None? <==> forall i :: 0 <= i < |s| ==> !p(s[i])
    ensures r.Some? ==> r.value < |s| && p(s[r.value])
    ensures r.Some? ==> forall j :: 0 <= j < r.value ==> !p(s[j])
  {
    if |s| == 0 then None
    else if p(s[0]) then Some(0)
    else
      match FirstIndex(s[1..], p)
      case None => None
      case Some(k) => Some(k + 1)
  }

  /** Where the student with primary key `id` sits: `get_or_404` before the 404. */
  function IndexOfStudent(ss: seq<Student>, id: int): (r: Option<nat>)
    ensures r.None? <==> !HasStudentId(ss, id)
    ensures r.Some? ==> r.value < |ss| && ss[r.value].id == id
    ensures r.Some? && StudentIdsDistinct(ss) ==>
              forall j :: 0 <= j < |ss| && j != r.value ==> ss[j].id != id
  {
    FirstIndex(ss, (s: Student) => s.id == id)
  }

  /** Where the first user called `username` sits: `filter_by(username=...).first()`. */
  function IndexOfUsername(us: seq<User>, username: string): (r: Option<nat>)
    ensures r.None? <==> !HasUsername(us, username)
    ensures r.Some? ==> r.value < |us| && us[r.value].username == username
    ensures r.Some? && UsernamesDistinct(us) ==>
              forall j :: 0 <= j < |us| && j != r.value ==> us[j].username != username
  {
    FirstIndex(us, (u: User) => u.username == username)
  }

  /** The largest of some ids, or 0 when there are none. */
  function MaxId(ids: seq<int>): (m: int)
    ensures 0 <= m
    ensures forall i :: 0 <= i < |ids| ==> ids[i] <= m
  {
    if |ids| == 0 then 0
    else
      var rest := MaxId(ids[1..]);
      if ids[0] < rest then rest else ids[0]
  }

  /** The id the store gives a new student row: positive and not yet taken.
      This model picks one more than the largest id in the table. */
  function NewStudentId(ss: seq<Student>): (id: int)
    ensures 0 < id
    ensures !HasStudentId(ss, id)
  {
    var ids := seq(|ss|, i requires 0 <= i < |ss| => ss[i].id);
    assert forall i :: 0 <= i < |ss| ==> ss[i].id == ids[i];
    MaxId(ids) + 1
  }

  /** The id the store gives a new user row: positive and not yet taken. */
  function NewUserId(us: seq<User>): (id: int)
    ensures 0 < id
    ensures !HasUserId(us, id)
  {
    var ids := seq(|us|, i requires 0 <= i < |us| => us[i].id);
    assert forall i :: 0 <= i < |us| ==> us[i].id == ids[i];
    MaxId(ids) + 1
  }

  /** Dropping the row at `k` keeps the other rows, in order; with distinct
      ids it drops exactly the row with that id. */
  lemma RemoveStudentAt(ss: seq<Student>, k: nat)
    requires k < |ss|
    ensures |ss[..k] + ss[k + 1..]| == |ss| - 1
    ensures forall i :: 0 <= i < |ss| - 1 ==>
              (ss[..k] + ss[k + 1..])[i] == (if i < k then ss[i] else ss[i + 1])
    ensures StudentIdsDistinct(ss) ==>
              && StudentIdsDistinct(ss[..k] + ss[k + 1..])
              && !HasStudentId(ss[..k] + ss[k + 1..], ss[k].id)
              && forall s :: s in ss[..k] + ss[k + 1..] <==> s in ss && s.id != ss[k].id
  {
  }

  lemma EmptyIsValid()
    ensures Valid(Empty)
  {
  }
}

=== FILE: Text.dfy ===
/** Substring matching, the meaning given here to a column's `contains(query)`
    filter: plain, case-sensitive occurrence, no wildcards. */
module Text {

  /** `needle` occurs somewhere inside `hay`; the empty needle occurs in every string. */
  predicate Contains(hay: string, needle: string)
    decreases |hay|
  {
    needle <= hay || (|hay| > 0 && Contains(hay[1..], needle))
  }

  /** `needle` is the slice of `hay` that starts at position `i`. */
  ghost predicate OccursAt(hay: string, needle: string, i: int) {
    0 <= i && i + |needle| <= |hay| && hay[i..i + |needle|] == needle
  }

  /** `Contains` holds exactly when there is a position the needle occurs at. */
  lemma {:induction false} ContainsIffOccurs(hay: string, needle: string)
    ensures Contains(hay, needle) <==> exists i :: OccursAt(hay, needle, i)
    decreases |hay|
  {
    if Contains(hay, needle) {
      if needle <= hay {
        assert OccursAt(hay, needle, 0);
      } else {
        ContainsIffOccurs(hay[1..], needle);
        var i :| OccursAt(hay[1..], needle, i);
        assert hay[1..][i..i + |needle|] == hay[i + 1..i + 1 + |needle|];
        assert OccursAt(hay, needle, i + 1);
      }
    } else {
      forall i | OccursAt(hay, needle, i)
        ensures false
      {
        if i != 0 {
          ContainsIffOccurs(hay[1..], needle);
          assert hay[1..][i - 1..i - 1 + |needle|] == hay[i..i + |needle|];
          assert OccursAt(hay[1..], needle, i - 1);
        }
      }
    }
  }

  /** The empty query matches every name. */
  lemma ContainsEmpty(hay: string)
    ensures Contains(hay, "")
  {
  }
}
